=== FILE: README.md ===
# MediaTimer core in Dafny

MediaTimer is a browser usage timer. It counts the seconds spent on content of three
categories (normal, adult, movie). It enforces two daily budgets: one for adult content,
and one shared by normal and movie content. A Normal session gets a mandatory break after
a configured interval of continuous use. A short stop-and-restart of a Normal session
continues the same session. Completed sessions go into a seven-day history, and today's
per-pool totals are computed from it.

This project models the timer and budget engine of `app.js` as one immutable `State`
record with pure transition functions:

| module | file | what it holds |
|---|---|---|
| `Types` | types.dfy | categories, pools, settings, session records, totals, continuation memory, the `State` record |
| `Clock` | clock.dfy | calendar day of a timestamp; the hours/minutes/seconds split |
| `History` | history.dfy | legacy category mapping, today's totals, retention filter, manual-entry check |
| `Budget` | budget.dfy | remaining seconds per pool, warning/danger classes, alarm window |
| `Continuation` | continuation.dfy | resume-or-restart decision on start; break-owed and memory decision on stop |
| `BreakTimer` | break_timer.dfy | break modal, break countdown, completing a break |
| `SessionTimer` | session_timer.dfy | start, stop, the one-second tick, manual entry, clear, launch |
| `Controller` | controller.dfy | which events can occur in which state; the state invariant they keep |
| `ReentrantStop` | reentrant_stop.dfy | stop as written, with its nested budget refresh (see Findings) |
| `Scenarios` | scenarios.dfy | worked examples with concrete numbers |

How the environment is modelled:
- The clock is a parameter `now`, in whole seconds on the local clock.
- A calendar day is `now / 86400`.
- The retention window is `7 * 86400` seconds.
- The category is a parameter of every operation. The program reads the selected radio
  button afresh on every call, so stop, tick and save all use the category selected
  at that moment.
- Settings are a parameter of every operation. The daily limits are whole seconds.
  Break interval and duration are whole minutes, multiplied by 60 as in the program.
- The repeating alarm is the boolean `alarm`. `startAlarm` sets it and `stopAlarm` clears it.
- A tick is a function call. `Controller.Step` delivers the timer tick only while the timer
  runs, and break ticks only during a break, because those are the times when the program's
  intervals exist.

Three behaviours are modelled as the code has them, although a reader of the program's
intent might expect otherwise:
- A session that runs out of budget after reaching its break interval is stopped
  through `stopTimer`. `stopTimer` opens the break whenever a Normal session has reached
  its interval, so the limit stop still opens the break. The tick's own break check is
  skipped only because the stop has reset the next-break mark.
  `Controller.LimitStopCanOpenBreak` states this for the corrected stop (see
  "## Left out" and "## Findings"). As written, a limit stop returns, and so opens
  the break, only when the stored totals are stale, for example in a session
  running past midnight.
  `ReentrantStop.StaleTotalsLimitStopOpensBreak` shows that case. With current totals
  the as-written stop never returns.
- Completing a break always sets the timer running. After a break opened by a stop,
  the seconds were already reset, so the resumed session runs from 0.
  `Controller.BreakAfterStopResumesFromZero` states this.
- The stored totals are recomputed from the history only when the history is redrawn.
  The model keeps them as a field and recomputes them at the same points.

## Model

| member | source | states |
|---|---|---|
| `Clock.Split` | app.js:249-251 | hours, minutes and seconds recompose to the input, with minutes and seconds below 60 |
| `Clock.SplitUnique` | app.js:249-251 | any split with minutes and seconds below 60 is this one |
| `History.EffectiveCategory` | app.js:496 | a record's own category wins; a legacy record counts as movie exactly when flagged `isMovie`, and never as adult |
| `History.DailyTotals` | app.js:466-526 | the definition (no contract): today's normal and adult totals are the sums of the durations of the records dated today, an adult record in the adult pool and every other record in the normal pool |
| `History.DailyTotalsAppend` | app.js:517-522 | appending a record dated today adds its duration to exactly its own pool; a record of another day changes nothing |
| `History.NoSessionTodayIsZero` | app.js:471-476 | with no record dated today both totals are zero |
| `History.ComputeTotals` | app.js:466-526 | the one-pass aggregation loop yields the per-pool sums of today's records |
| `History.Prune` | app.js:646-652 | the result keeps only records strictly younger than seven days, keeps every such record, and is no longer than the input |
| `History.PruneConcat` | app.js:650-652 | filtering distributes over concatenation, so the records keep their order |
| `History.PruneKeepsRecent` | app.js:650-652 | a history of recent records is unchanged |
| `History.PruneIdempotent` | app.js:650-652 | pruning twice equals pruning once |
| `History.PruneKeepsToday` | app.js:641-652 | pruning never changes today's totals |
| `History.ValidateManual` | app.js:576-586 | an entry is accepted iff `0 < h*3600 + m*60 <= 36000`; it is then that many seconds; the error says which bound failed |
| `Budget.Remaining` | app.js:310-348 | remaining time is at most the pool's limit; it is zero iff today's pool total plus the running seconds reach the limit; otherwise it is the exact difference |
| `Budget.FreshDayFullBudget` | app.js:317 | with zero totals and no running seconds the whole limit remains |
| `Budget.TickConsumesOneSecond` | app.js:246-254 | each second of the session takes one second off the remaining time until it reaches zero |
| `Budget.Classify` | app.js:327-335 | danger iff the percentage left is at most 10; warning iff it is above 10 and at most 25; a zero limit gives neither class |
| `Budget.PercentBounds` | app.js:366-374 | the real-valued percentage comparisons agree with the integer comparisons `r*10 <= L` and `r*4 <= L` |
| `Budget.ClassifyMonotone` | app.js:366-374 | less time left never gives a milder class |
| `Budget.DisplayLevel` | app.js:366-374 | a danger display means at most a tenth of the limit is left; an exhausted nonzero budget always shows danger |
| `Continuation.DecideStart` | app.js:170-185 | the start value is 0 or the remembered seconds; it is nonzero iff the category is normal, `0 < last < interval`, a stop time is remembered, and less than a break's length has passed since it |
| `Continuation.DecideStop` | app.js:209-221 | a break is owed iff normal and the seconds reach the interval; memory is (seconds, now) for a normal stop that owes no break, cleared otherwise |
| `Continuation.StopThenStartResumes` | app.js:170-221 | a normal session stopped short of its interval and restarted within a break's length resumes exactly its seconds |
| `Continuation.LongPauseStartsAfresh` | app.js:170-182 | a restart after a full break's length starts at zero |
| `Continuation.NoCarryOverAfterBreakOrOtherCategory` | app.js:214-221 | after a stop that owed a break, or one of a non-normal category, every start begins at zero |
| `BreakTimer.Begin` | app.js:400-403 | the break is on and its counter starts at zero; nothing else changes |
| `BreakTimer.Complete` | app.js:421-440 | the timer runs, the break and the alarm are off, memory is cleared, the next break is one interval after the current seconds, and the session seconds and history are kept |
| `BreakTimer.Tick` | app.js:406-411 | the counter goes up by one; once it reaches the break duration, the break completes |
| `BreakTimer.BreakLastsItsDuration` | app.js:400-418 | a fresh break stays on with counter `k` for fewer than duration ticks; at the duration it has completed (a zero duration takes one tick) |
| `SessionTimer.Render` | app.js:525-526 | the redraw makes the stored totals those of today's records, and changes nothing else |
| `SessionTimer.Record` | app.js:451-461 | saving appends exactly the one record, leaves the totals current for today, and changes nothing else |
| `SessionTimer.RecordAddsToOnePool` | app.js:451-461 | saving a record dated today raises its own pool's total by its duration, leaves the other pool alone, and keeps the totals current |
| `SessionTimer.Stop` | app.js:201-237 | alarm off, timer reset; exactly one record of the seconds iff there were any; break opened iff normal and at the interval; memory as decided on stop; totals current after a save |
| `SessionTimer.Refresh` | app.js:376-384 | idle: nothing changes; running with zero left: the session stops, through the corrected stop; 1 to 5 seconds left: only the alarm is raised; more left: nothing changes |
| `SessionTimer.Start` | app.js:161-198 | a running timer is untouched; otherwise it runs from the continuation value, the next break one interval away for normal and disabled otherwise; nothing else changes |
| `SessionTimer.Tick` | app.js:246-284 | with the corrected stop on its budget path: on an exhausted budget the session is saved with one more second, reset, remembered as on stop, and a break opens iff owed; otherwise the seconds rise by one with history and memory kept; the break opens without a record at the boundary; the alarm rises iff it was on, the break is 1-5 s away, or 1-5 s of budget remain |
| `SessionTimer.AddManualTime` | app.js:571-606 | refused iff the entry is not in `(0, 36000]` seconds; an accepted entry is appended as a manual record of its category; the totals are current afterwards; at most one more record follows, the running session's, made when the refresh stops it with the corrected stop; a running timer stops iff the budget refresh after the entry finds nothing left; with the timer idle nothing else changes |
| `SessionTimer.ClearHistory` | app.js:616-625 | history empty, totals zero and current for every day, the timer untouched |
| `SessionTimer.Launch` | app.js:641-656 | an idle timer with no memory; the history is the pruned one; today's totals equal those of the unpruned history |
| `Controller.Deliverable` | app.js:389-397 | the definition (no contract): start only while idle and stop only while running, as `updateControls` enables the buttons; the timer tick only while running and break events only during a break, as the intervals set at app.js:194 and 406 and cleared at 239 and 425 live; nothing but break events during a break |
| `Controller.Step` | app.js:136-152 | events reach the handlers registered here, gated as `updateControls` and the intervals allow; an event that cannot occur, or a refused manual entry, leaves the state unchanged |
| `Controller.LaunchEstablishesInv` | app.js:2-35 | the loaded state satisfies the invariant |
| `Controller.StepPreservesInv` | app.js:161-243 | every event keeps three facts: never running during a break; idle outside a break means reset; the alarm only sounds while running or on a break |
| `Controller.RunPreservesInv` | app.js:136-152 | every state reached by any sequence of events satisfies the invariant |
| `Controller.LimitStopCanOpenBreak` | app.js:209-229 | with the corrected stop, a limit stop of a normal session at its interval records the session and still opens the break |
| `Controller.BreakAfterStopResumesFromZero` | app.js:433-438 | completing a break opened by a stop sets the timer running from zero, the next break one interval away |
| `Controller.BreakAfterTickContinuesSession` | app.js:258-265 | a break opened by the tick keeps the seconds, and after it the same session runs on with the next break one interval later |
| `Controller.StopThenStartResumesSession` | app.js:161-221 | stopping and restarting a normal session within a break's length resumes its seconds after one record |
| `ReentrantStop.StopAsWritten` | app.js:201-237 | stop as the program writes it, including the refresh at the end of the redraw (app.js:443-461, 535), with the nesting bounded; whenever it returns, the timer is reset, the history only grew, and the first new record is the stopped session |
| `ReentrantStop.SavedTotals` | app.js:443-461 | with current totals, saving inside stop adds the elapsed seconds to the category's pool while the timer still runs with its seconds unchanged |
| `ReentrantStop.ReentryNeverReturns` | app.js:205-223 | once the nested budget refresh fires inside the save, stop as written never returns, whatever the nesting bound |
| `ReentrantStop.LimitStopNeverReturns` | app.js:376-384 | every stop made by a tick's budget refresh never returns when the totals were current |
| `ReentrantStop.HandStopNeverReturns` | app.js:201-206 | a 5400 s movie session stopped by hand with nothing else used today (3 h limit) never returns |
| `ReentrantStop.BoundaryExampleNeverReturns` | app.js:348 | the concrete boundary case (10799 of 10800 s used, first tick) never returns |
| `ReentrantStop.AgreesWhenBudgetLeft` | app.js:201-237 | when the nested refresh neither stops nor alarms, stop as written equals the corrected stop |
| `ReentrantStop.StaleTotalsLimitStopOpensBreak` | app.js:205-229 | with stale totals (the page open overnight, yesterday's record of 9600 s still counted, a 1200 s session started today, 3 h limit) the tick's limit stop returns, records the session once and opens the break |
| `ReentrantStop.StopLeavesAlarmOn` | app.js:377-380 | the concrete case where the alarm sounds after a stop with the timer idle and no break |
| `Scenarios.ContinuationAtTheInterval` | app.js:176-221 | stopped at 1199 s and restarted 5 minutes later resumes at 1199; stopped at 1200 s owes a break and restarts at 0 |
| `Scenarios.BreakTiming` | app.js:258-268 | the alarm starts 5 s before the break and not 6; at 1200 s the break opens without a record |
| `Scenarios.BudgetBoundary` | app.js:376-384 | with the corrected stop: with 10799 of 10800 s used today, the first tick stops the session with a one-second record, the normal total becomes 10800, and no break opens |
| `Scenarios.RetentionWindow` | app.js:646-652 | a record from 8 days ago is dropped and one from 6 days ago kept |
| `Scenarios.ManualEntries` | app.js:576-603 | 0:00 and 11:00 are refused; 1:30 adult adds one manual record of 5400 s to the adult pool |
| `Scenarios.LegacyRecordsCountAsNormalPool` | app.js:494-522 | legacy records with and without `isMovie` both count toward the normal pool |

## Left out

- DOM rendering is not modelled: digit drums, padding, the history list markup, button enabling, and the view switching. The one exception is `updateControls`, as the event gating in `Controller.Deliverable`.
- Audio is not modelled. The oscillator beep and the one-second repetition of the alarm are reduced to the `alarm` flag.
- Interval plumbing is not modelled. `setInterval` and `clearInterval` become explicit tick events. The model assumes the break modal covers the other controls, which is a stylesheet matter outside this model. If a start could be pressed during a break, the program would end up with two session intervals; that case is not modelled.
- The `beforeunload` save is not modelled, because it is page-lifecycle I/O.
- Storage is not modelled: `localStorage`, JSON (de)serialisation, `loadSettings`, and `saveSettings` with its `parseFloat`/`parseInt`. Records and settings arrive already parsed. Unknown category strings and unparsable dates in stored records are not represented.
- Float limits are not modelled. Fractional or negative hour limits and NaN settings are not represented. The percentage comparison is proved equal to exact rational arithmetic.
- Sub-second timestamps are not modelled. The program measures the pause since the last stop in milliseconds; the model uses whole seconds.
- Local calendar and daylight saving are not modelled. `toDateString` becomes `now / 86400` on local seconds, and `setDate(-7)` becomes 7 × 86400 seconds.
- `alert` and `confirm` are not modelled. `ClearHistory` is the confirmed branch.
- `isPaused` and `sessionStartTime` are not modelled: they are never read for a decision.
- The adult remaining-time display shown in normal mode (app.js:358-364) is display only.
- `SessionTimer.Stop`: leaves out the budget refresh that the history redraw runs at app.js:535 inside the save, which as written re-enters `stopTimer` (see "## Findings"). `ReentrantStop.StopAsWritten` models that refresh. `SessionTimer.Refresh`, `SessionTimer.Tick`, `SessionTimer.AddManualTime`, `Controller.Step` (its stop event), `Controller.LimitStopCanOpenBreak`, `Scenarios.BudgetBoundary` and the `Controller` invariant use the corrected stop.

## Findings

| source | as written | input that shows it | evidently intended | confidence | as-written member | corrected member |
|---|---|---|---|---|---|---|
| app.js:205-223 | `stopTimer` saves the session before `resetTimer`. The save redraws the history, and the redraw ends with `updateRemainingTime` (line 535) while `isRunning` is still true and `elapsedSeconds` is not yet reset. That refresh counts the saved seconds twice: once in today's total and once as elapsed. When the doubled count reaches the limit, it calls `stopTimer` again, which saves a duplicate record and recurses until the call stack overflows. When today's totals are current, every stop whose seconds are at least half of what the pool had left before the session takes this path, by hand or by the limit; every limit-triggered stop is one. | daily limit 3 h, 10799 s already used today, the first tick of a normal session; or a movie session of 5400 s stopped by hand with nothing else used today | the stop records the session once, then resets the timer | high, by reading; not executed | `ReentrantStop.LimitStopNeverReturns` | `SessionTimer.Stop` |
| app.js:377-380 | The same nested refresh can find 1 to 5 seconds left after double counting. It then restarts the alarm that `stopTimer` has just stopped, and the alarm keeps ringing with the timer idle. | a movie session of 5398 s stopped by hand, nothing else used today, 3 h limit (10800 − 2 × 5398 = 4) | no alarm after a stop unless a break is on | high, by reading; not executed | `ReentrantStop.StopLeavesAlarmOn` | `Controller.StepPreservesInv` |

=== FILE: break_timer.dfy ===
/** The break countdown: opened when a break is owed, counted up once a second,
    and completed either by the countdown or by the user. */
module BreakTimer {
  import opened Types

  /** Opening the break modal: the break counter starts at zero. */
  function Begin(s: State): (r: State)
    ensures r.onBreak && r.breakElapsed == 0
    ensures r.(onBreak := s.onBreak, breakElapsed := s.breakElapsed) == s
  {
    s.(onBreak := true, breakElapsed := 0)
  }

  /** Completing the break: the alarm stops, continuation memory is cleared,
      the next break falls one interval after the session's current seconds,
      and the session timer runs again, whatever state it was in before. */
  function Complete(s: State, st: Settings): (r: State)
    ensures r.running && !r.onBreak && !r.alarm
    ensures r.memory == NoMemory
    ensures r.nextBreak == s.elapsed + st.BreakIntervalSeconds()
    ensures r.elapsed == s.elapsed && r.breakElapsed == s.breakElapsed
    ensures r.history == s.history && r.today == s.today
  {
    s.(alarm := false, onBreak := false, memory := NoMemory,
       nextBreak := s.elapsed + st.BreakIntervalSeconds(), running := true)
  }

  /** One second of the break countdown; the break completes itself once the
      configured duration has been counted. */
  function Tick(s: State, st: Settings): (r: State)
    ensures s.breakElapsed + 1 < st.BreakDurationSeconds() ==>
      r == s.(breakElapsed := s.breakElapsed + 1)
    ensures s.breakElapsed + 1 >= st.BreakDurationSeconds() ==>
      r == Complete(s.(breakElapsed := s.breakElapsed + 1), st)
  {
    var s1 := s.(breakElapsed := s.breakElapsed + 1);
    var remaining := st.BreakDurationSeconds() as int - s1.breakElapsed;
    if remaining <= 0 then Complete(s1, st) else s1
  }

  /** `k` seconds of the break countdown, which fire only while the break lasts. */
  function Ticks(s: State, st: Settings, k: nat): State
    decreases k
  {
    if k == 0 || !s.onBreak then s else Ticks(Tick(s, st), st, k - 1)
  }

  /** Length of a break in countdown ticks: a zero duration still takes one tick. */
  function TicksToComplete(st: Settings): nat {
    if st.BreakDurationSeconds() == 0 then 1 else st.BreakDurationSeconds()
  }

  /** A freshly opened break lasts exactly its duration: before that the break
      is still on with the counter at `k`; at that point the session runs again. */
  lemma {:induction false} BreakLastsItsDuration(s: State, st: Settings, k: nat)
    requires s.onBreak && s.breakElapsed == 0
    ensures k < TicksToComplete(st) ==> Ticks(s, st, k) == s.(breakElapsed := k)
    ensures k >= TicksToComplete(st) ==>
      Ticks(s, st, k) == Complete(s.(breakElapsed := TicksToComplete(st)), st)
  {
    CountdownFrom(s, st, 0, k);
  }

  lemma {:induction false} CountdownFrom(s: State, st: Settings, j: nat, k: nat)
    requires s.onBreak
    requires j < TicksToComplete(st)
    ensures j + k < TicksToComplete(st) ==>
      Ticks(s.(breakElapsed := j), st, k) == s.(breakElapsed := j + k)
    ensures j + k >= TicksToComplete(st) ==>
      Ticks(s.(breakElapsed := j), st, k) == Complete(s.(breakElapsed := TicksToComplete(st)), st)
    decreases k
  {
    if k > 0 {
      var s1 := s.(breakElapsed := j);
      if j + 1 < TicksToComplete(st) {
        assert Tick(s1, st) == s.(breakElapsed := j + 1);
        CountdownFrom(s, st, j + 1, k - 1);
      } else {
        assert Tick(s1, st) == Complete(s.(breakElapsed := TicksToComplete(st)), st);
      }
    }
  }
}

=== FILE: budget.dfy ===
/** The daily budget: the seconds left in the selected category's pool, the
    warning classes of the remaining-time display, and the alarm window. */
module Budget {
  import opened Types

  /** The alarm starts this many seconds before a limit or a break. */
  const AlarmLeadSeconds: nat := 5

  /** Seconds left today for `cat`, given today's totals and the seconds of the
      running session, clamped at zero. */
  function Remaining(st: Settings, cat: Category, today: Totals, elapsed: nat): (r: nat)
    ensures r <= st.LimitOf(PoolOf(cat))
    ensures r == 0 <==> st.LimitOf(PoolOf(cat)) <= today.Get(PoolOf(cat)) + elapsed
    ensures r > 0 ==> r + today.Get(PoolOf(cat)) + elapsed == st.LimitOf(PoolOf(cat))
  {
    var p := PoolOf(cat);
    var left := st.LimitOf(p) as int - today.Get(p) - elapsed;
    if left > 0 then left else 0
  }

  predicate AlarmDue(remaining: nat) {
    0 < remaining <= AlarmLeadSeconds
  }

  /** With nothing used yet the whole limit is available. */
  lemma FreshDayFullBudget(st: Settings, cat: Category)
    ensures Remaining(st, cat, ZeroTotals, 0) == st.LimitOf(PoolOf(cat))
  {
  }

  /** Each second of the running session takes exactly one second off the
      budget until it is exhausted. */
  lemma TickConsumesOneSecond(st: Settings, cat: Category, today: Totals, elapsed: nat)
    ensures Remaining(st, cat, today, elapsed + 1) ==
      if Remaining(st, cat, today, elapsed) > 0 then Remaining(st, cat, today, elapsed) - 1 else 0
  {
  }

  /** The colour class of the remaining-time display. */
  datatype Level = Plain | Warning | Danger

  function Severity(l: Level): nat {
    match l
    case Plain => 0
    case Warning => 1
    case Danger => 2
  }

  /** Percentage of the limit still left, as the display computes it. */
  function Percent(remaining: nat, limit: nat): real
    requires limit > 0
  {
    (remaining as real) / (limit as real) * 100.0
  }

  /** Danger at or below 10% of the limit, else Warning at or below 25%. A zero
      limit makes the percentage 0/0, which fails both comparisons. */
  function Classify(remaining: nat, limit: nat): (l: Level)
    ensures limit == 0 ==> l == Plain
    ensures limit > 0 ==> (l == Danger <==> Percent(remaining, limit) <= 10.0)
    ensures limit > 0 ==> (l == Warning <==> 10.0 < Percent(remaining, limit) <= 25.0)
  {
    PercentBounds(remaining, limit);
    if limit == 0 then Plain
    else if remaining * 10 <= limit then Danger
    else if remaining * 4 <= limit then Warning
    else Plain
  }

  /** Multiplying both sides by a positive denominator. */
  lemma RatioAtMost(a: real, l: real, c: real)
    requires l > 0.0
    ensures a / l * 100.0 <= c <==> a * 100.0 <= c * l
  {
    var q := a / l;
    assert q * l == a;
    assert q * 100.0 <= c <==> q * 100.0 * l <= c * l;
  }

  /** The real-valued percentage comparisons agree with integer cross-multiplication. */
  lemma PercentBounds(remaining: nat, limit: nat)
    ensures limit > 0 ==> (Percent(remaining, limit) <= 10.0 <==> remaining * 10 <= limit)
    ensures limit > 0 ==> (Percent(remaining, limit) <= 25.0 <==> remaining * 4 <= limit)
  {
    if limit > 0 {
      RatioAtMost(remaining as real, limit as real, 10.0);
      RatioAtMost(remaining as real, limit as real, 25.0);
      assert (remaining * 10) as real == (remaining as real) * 10.0;
      assert (remaining * 4) as real == (remaining as real) * 4.0;
    }
  }

  /** As the budget runs down the display never becomes less severe. */
  lemma ClassifyMonotone(r1: nat, r2: nat, limit: nat)
    requires r1 <= r2
    ensures Severity(Classify(r1, limit)) >= Severity(Classify(r2, limit))
  {
  }

  /** The display level of the selected category's pool. */
  function DisplayLevel(st: Settings, cat: Category, today: Totals, elapsed: nat): (l: Level)
    ensures l == Danger ==> Remaining(st, cat, today, elapsed) * 10 <= st.LimitOf(PoolOf(cat))
    ensures Remaining(st, cat, today, elapsed) == 0 && st.LimitOf(PoolOf(cat)) > 0 ==> l == Danger
  {
    Classify(Remaining(st, cat, today, elapsed), st.LimitOf(PoolOf(cat)))
  }
}

=== FILE: clock.dfy ===
/** Time in the model: timestamps are whole seconds on the local clock, and a
    calendar day is the number of whole days since the epoch. */
module Clock {

  const SecondsPerDay: nat := 86400

  function Day(t: nat): nat {
    t / SecondsPerDay
  }

  /** Two instants on the same calendar day are less than a day apart. */
  lemma SameDayIsClose(a: nat, b: nat)
    requires Day(a) == Day(b)
    ensures a as int > b as int - SecondsPerDay
  {
    assert Day(a) * SecondsPerDay <= a;
    assert b < (Day(b) + 1) * SecondsPerDay;
  }

  datatype Hms = Hms(hours: nat, minutes: nat, seconds: nat)

  /** The hours / minutes / seconds split used for every h:mm:ss display. */
  function Split(s: nat): (r: Hms)
    ensures r.minutes < 60 && r.seconds < 60
    ensures r.hours * 3600 + r.minutes * 60 + r.seconds == s
  {
    Hms(s / 3600, (s % 3600) / 60, s % 60)
  }

  /** The split is the unique one with minutes and seconds below 60. */
  lemma SplitUnique(s: nat, h: nat, m: nat, sec: nat)
    requires m < 60 && sec < 60
    requires h * 3600 + m * 60 + sec == s
    ensures Split(s) == Hms(h, m, sec)
  {
    var r := Split(s);
    assert m * 60 + sec < 3600;
    assert r.minutes * 60 + r.seconds < 3600;
    assert h == r.hours;
    assert m * 60 + sec == r.minutes * 60 + r.seconds;
  }
}

=== FILE: continuation.dfy ===
/** The continuation policy: a Normal session stopped before its break was owed,
    and restarted before a break's worth of time has passed, resumes its seconds;
    a session that stopped owing a break never carries over. */
module Continuation {
  import opened Types

  /** Seconds since the remembered stop; `None` stands for an infinite gap
      (nothing remembered). The clock may run backwards, hence `int`. */
  function TimeSinceStop(mem: Memory, now: nat): Option<int> {
    match mem.lastStopTime
    case Some(t) => Some(now as int - t)
    case None => None
  }

  /** The elapsed seconds a session started now begins with. */
  function DecideStart(cat: Category, mem: Memory, st: Settings, now: nat): (r: nat)
    ensures r == 0 || r == mem.lastSessionSeconds
    ensures r > 0 <==>
      && cat == Normal
      && 0 < mem.lastSessionSeconds < st.BreakIntervalSeconds()
      && mem.lastStopTime.Some?
      && now as int - mem.lastStopTime.value < st.BreakDurationSeconds()
  {
    if cat == Normal && mem.lastSessionSeconds > 0 then
      var since := TimeSinceStop(mem, now);
      var shortPause := since.Some? && since.value < st.BreakDurationSeconds();
      if mem.lastSessionSeconds < st.BreakIntervalSeconds() && shortPause then
        mem.lastSessionSeconds
      else 0
    else 0
  }

  datatype StopDecision = StopDecision(needBreak: bool, memory: Memory)

  /** Whether stopping now owes a break, and what to remember for continuation. */
  function DecideStop(cat: Category, elapsed: nat, st: Settings, now: nat): (d: StopDecision)
    ensures d.needBreak <==> cat == Normal && elapsed >= st.BreakIntervalSeconds()
    ensures d.memory.lastSessionSeconds > 0 ==> !d.needBreak
    ensures cat == Normal && !d.needBreak ==> d.memory == Memory(elapsed, Some(now))
    ensures cat != Normal || d.needBreak ==> d.memory == NoMemory
  {
    var needBreak := cat == Normal && elapsed >= st.BreakIntervalSeconds();
    if cat == Normal && !needBreak then StopDecision(needBreak, Memory(elapsed, Some(now)))
    else StopDecision(needBreak, NoMemory)
  }

  /** Round trip: a Normal session stopped short of its interval and restarted
      within a break's length resumes exactly the seconds it stopped with. */
  lemma StopThenStartResumes(elapsed: nat, st: Settings, stopped: nat, started: nat)
    requires 0 < elapsed < st.BreakIntervalSeconds()
    requires started as int - stopped < st.BreakDurationSeconds()
    ensures DecideStart(Normal, DecideStop(Normal, elapsed, st, stopped).memory, st, started) == elapsed
  {
  }

  /** A pause at least as long as a break starts afresh. */
  lemma LongPauseStartsAfresh(elapsed: nat, st: Settings, stopped: nat, started: nat)
    requires started as int - stopped >= st.BreakDurationSeconds()
    ensures DecideStart(Normal, DecideStop(Normal, elapsed, st, stopped).memory, st, started) == 0
  {
  }

  /** A stop that owed a break, or one of another category, never carries over. */
  lemma NoCarryOverAfterBreakOrOtherCategory(cat: Category, elapsed: nat, st: Settings,
                                             stopped: nat, cat': Category, started: nat)
    requires DecideStop(cat, elapsed, st, stopped).needBreak || cat != Normal
    ensures DecideStart(cat', DecideStop(cat, elapsed, st, stopped).memory, st, started) == 0
  {
  }
}

=== FILE: controller.dfy ===
/** The event loop around the timers. The program is driven by button clicks
    and by two one-second intervals; an interval only exists while its timer
    runs, and while the break modal is up it covers the other controls. This
    module delivers each event only when it can occur and proves the state
    invariants that the delivered events keep. */
module Controller {
  import opened Types
  import History
  import BreakTimer
  import SessionTimer

  datatype Event =
    | StartPressed(cat: Category, now: nat)
    | StopPressed(cat: Category, now: nat)
    | SecondElapsed(cat: Category, now: nat)
    | BreakSecondElapsed
    | BreakDonePressed
    | ManualEntry(hours: int, minutes: int, entryCat: Category, selected: Category, now: nat)
    | ClearConfirmed

  /** Whether the event can reach the program in state `s`: the start button is
      enabled only while idle and the stop button only while running, the timer
      tick fires only while running, break events only during a break, and the
      main controls are hidden behind the break modal. */
  predicate Deliverable(s: State, e: Event) {
    match e
    case StartPressed(_, _) => !s.onBreak && !s.running
    case StopPressed(_, _) => !s.onBreak && s.running
    case SecondElapsed(_, _) => s.running
    case BreakSecondElapsed => s.onBreak
    case BreakDonePressed => s.onBreak
    case ManualEntry(_, _, _, _, _) => !s.onBreak
    case ClearConfirmed => !s.onBreak
  }

  function Step(s: State, st: Settings, e: Event): (r: State)
    ensures !Deliverable(s, e) ==> r == s
    ensures e.ManualEntry? && !(0 < e.hours * 3600 + e.minutes * 60 <= History.ManualMaxSeconds) ==> r == s
  {
    if !Deliverable(s, e) then s
    else
      match e
      case StartPressed(cat, now) => SessionTimer.Start(s, st, cat, now)
      case StopPressed(cat, now) => SessionTimer.Stop(s, st, cat, now)
      case SecondElapsed(cat, now) => SessionTimer.Tick(s, st, cat, now)
      case BreakSecondElapsed => BreakTimer.Tick(s, st)
      case BreakDonePressed => BreakTimer.Complete(s, st)
      case ManualEntry(h, m, entryCat, selected, now) =>
        (match SessionTimer.AddManualTime(s, st, h, m, entryCat, selected, now)
         case Ok(r) => r
         case Err(_) => s)
      case ClearConfirmed => SessionTimer.ClearHistory(s)
  }

  /** The reachable timer states: never running during a break; an idle timer
      outside a break has been reset; and the alarm only sounds while a session
      runs or a break is in progress. */
  predicate Inv(s: State) {
    && !(s.running && s.onBreak)
    && (!s.running && !s.onBreak ==> s.elapsed == 0 && s.nextBreak == 0)
    && (s.alarm ==> s.running || s.onBreak)
  }

  lemma LaunchEstablishesInv(stored: seq<Session>, now: nat)
    ensures Inv(SessionTimer.Launch(stored, now))
  {
  }

  lemma StepPreservesInv(s: State, st: Settings, e: Event)
    requires Inv(s)
    ensures Inv(Step(s, st, e))
  {
  }

  function Run(s: State, st: Settings, events: seq<Event>): State
    decreases |events|
  {
    if |events| == 0 then s else Run(Step(s, st, events[0]), st, events[1..])
  }

  /** Every state reached from a launch by any sequence of events is in Inv. */
  lemma {:induction false} RunPreservesInv(s: State, st: Settings, events: seq<Event>)
    requires Inv(s)
    ensures Inv(Run(s, st, events))
    decreases |events|
  {
    if |events| > 0 {
      StepPreservesInv(s, st, events[0]);
      RunPreservesInv(Step(s, st, events[0]), st, events[1..]);
    }
  }

  /** A limit-triggered stop of a Normal session that reached its interval
      still opens the break: the tick's own break check is skipped only because
      the stop reset the next-break mark. */
  lemma LimitStopCanOpenBreak(s: State, st: Settings, now: nat)
    requires Inv(s) && s.running
    requires SessionTimer.LimitHit(s, st, Normal)
    requires s.elapsed + 1 >= st.BreakIntervalSeconds()
    ensures var r := Step(s, st, SecondElapsed(Normal, now));
      && r.onBreak && !r.running && r.elapsed == 0 && r.breakElapsed == 0
      && r.history == s.history + [SessionTimer.TimedSession(now, s.elapsed + 1, Normal)]
  {
  }

  /** Completing a break always sets the timer running, also after a break
      opened by a stop, where the session's seconds were already reset: the
      resumed session starts at zero with the next break one interval away. */
  lemma BreakAfterStopResumesFromZero(s: State, st: Settings, cat: Category, now: nat)
    requires Inv(s) && s.running
    requires cat == Normal && s.elapsed >= st.BreakIntervalSeconds()
    ensures var b := Step(s, st, StopPressed(cat, now));
      && b.onBreak
      && var r := Step(b, st, BreakDonePressed);
      && r.running && !r.onBreak && r.elapsed == 0
      && r.nextBreak == st.BreakIntervalSeconds() && r.memory == NoMemory
  {
  }

  /** A break opened by the tick keeps the session's seconds: after the break
      the same session runs on, with the next break one interval later. */
  lemma BreakAfterTickContinuesSession(s: State, st: Settings, now: nat)
    requires Inv(s) && s.running
    requires !SessionTimer.LimitHit(s, st, Normal) && SessionTimer.BreakHit(s, Normal)
    ensures var b := Step(s, st, SecondElapsed(Normal, now));
      && b.onBreak && !b.running && b.history == s.history
      && var r := Step(b, st, BreakDonePressed);
      && r.running && r.elapsed == s.elapsed + 1
      && r.nextBreak == s.elapsed + 1 + st.BreakIntervalSeconds()
  {
  }

  /** Stop, then start again within a break's length: a Normal session short
      of its interval resumes its seconds. */
  lemma StopThenStartResumesSession(s: State, st: Settings, stopped: nat, started: nat)
    requires Inv(s) && s.running
    requires 0 < s.elapsed < st.BreakIntervalSeconds()
    requires started as int - stopped < st.BreakDurationSeconds()
    ensures var r := Step(Step(s, st, StopPressed(Normal, stopped)), st, StartPressed(Normal, started));
      && r.running && r.elapsed == s.elapsed && r.nextBreak == st.BreakIntervalSeconds()
      && r.history == s.history + [SessionTimer.TimedSession(stopped, s.elapsed, Normal)]
  {
  }
}

=== FILE: history.dfy ===
/** The session history: legacy category mapping, today's per-pool totals,
    validation of manual entries and the seven-day retention filter. */
module History {
  import opened Types
  import Clock

  /** Sessions strictly younger than this many seconds survive a load. */
  const RetentionSeconds: nat := 7 * Clock.SecondsPerDay

  /** Upper bound on a single manual entry: ten hours. */
  const ManualMaxSeconds: nat := 36000

  /** The category a stored record counts under. A record written before
      categories existed counts as Movie when flagged `isMovie`, else Normal. */
  function EffectiveCategory(x: Session): (c: Category)
    ensures x.contentType.Some? ==> c == x.contentType.value
    ensures x.contentType.None? ==> c != Adult && (c == Movie <==> x.isMovie)
  {
    match x.contentType
    case Some(t) => t
    case None => if x.isMovie then Movie else Normal
  }

  function PoolOfSession(x: Session): Pool {
    PoolOf(EffectiveCategory(x))
  }

  /** Today's totals: per pool, the durations of the sessions dated `today`. */
  function DailyTotals(h: seq<Session>, today: nat): Totals
    decreases |h|
  {
    if |h| == 0 then ZeroTotals
    else
      var t := DailyTotals(h[..|h| - 1], today);
      var x := h[|h| - 1];
      if Clock.Day(x.date) == today then t.Add(PoolOfSession(x), x.duration) else t
  }

  /** Appending one record changes today's totals by exactly its duration, in
      exactly its pool, and only when it is dated today. */
  lemma DailyTotalsAppend(h: seq<Session>, x: Session, today: nat)
    ensures Clock.Day(x.date) == today ==>
      DailyTotals(h + [x], today) == DailyTotals(h, today).Add(PoolOfSession(x), x.duration)
    ensures Clock.Day(x.date) != today ==> DailyTotals(h + [x], today) == DailyTotals(h, today)
  {
    assert (h + [x])[..|h|] == h;
  }

  /** A history with no session dated today gives zero totals. */
  lemma {:induction false} NoSessionTodayIsZero(h: seq<Session>, today: nat)
    requires forall i :: 0 <= i < |h| ==> Clock.Day(h[i].date) != today
    ensures DailyTotals(h, today) == ZeroTotals
    decreases |h|
  {
    if |h| > 0 {
      NoSessionTodayIsZero(h[..|h| - 1], today);
    }
  }

  /** The aggregation loop of the history view: one pass over the records,
      adding each session of today to its pool. */
  method ComputeTotals(h: seq<Session>, today: nat) returns (t: Totals)
    ensures t == DailyTotals(h, today)
  {
    t := ZeroTotals;
    var i := 0;
    while i < |h|
      invariant 0 <= i <= |h|
      invariant t == DailyTotals(h[..i], today)
    {
      var x := h[i];
      DailyTotalsAppend(h[..i], x, today);
      assert h[..i + 1] == h[..i] + [x];
      if Clock.Day(x.date) == today {
        t := t.Add(PoolOfSession(x), x.duration);
      }
      i := i + 1;
    }
    assert h[..i] == h;
  }

  /** Whether a record survives the retention filter at load time `now`. */
  predicate Retained(x: Session, now: nat) {
    x.date as int > now as int - RetentionSeconds
  }

  /** The retention filter: the records dated strictly after a week ago, in
      their original order. */
  function Prune(h: seq<Session>, now: nat): (r: seq<Session>)
    ensures |r| <= |h|
    ensures forall i :: 0 <= i < |r| ==> r[i] in h && Retained(r[i], now)
    ensures forall i :: 0 <= i < |h| && Retained(h[i], now) ==> h[i] in r
    decreases |h|
  {
    if |h| == 0 then []
    else
      var p := Prune(h[..|h| - 1], now);
      var x := h[|h| - 1];
      if Retained(x, now) then p + [x] else p
  }

  /** Filtering distributes over concatenation, so it keeps relative order. */
  lemma {:induction false} PruneConcat(a: seq<Session>, b: seq<Session>, now: nat)
    ensures Prune(a + b, now) == Prune(a, now) + Prune(b, now)
    decreases |b|
  {
    if |b| == 0 {
      assert a + b == a;
    } else {
      var b' := b[..|b| - 1];
      assert (a + b)[..|a + b| - 1] == a + b';
      PruneConcat(a, b', now);
    }
  }

  /** A history whose records are all recent is left as it is. */
  lemma {:induction false} PruneKeepsRecent(h: seq<Session>, now: nat)
    requires forall i :: 0 <= i < |h| ==> Retained(h[i], now)
    ensures Prune(h, now) == h
    decreases |h|
  {
    if |h| > 0 {
      PruneKeepsRecent(h[..|h| - 1], now);
    }
  }

  /** Pruning twice is pruning once. */
  lemma PruneIdempotent(h: seq<Session>, now: nat)
    ensures Prune(Prune(h, now), now) == Prune(h, now)
  {
    PruneKeepsRecent(Prune(h, now), now);
  }

  /** Pruning never loses anything that counts towards today's totals: a record
      dated today is less than a day old. */
  lemma {:induction false} PruneKeepsToday(h: seq<Session>, now: nat)
    ensures DailyTotals(Prune(h, now), Clock.Day(now)) == DailyTotals(h, Clock.Day(now))
    decreases |h|
  {
    if |h| > 0 {
      var h' := h[..|h| - 1];
      var x := h[|h| - 1];
      PruneKeepsToday(h', now);
      assert h == h' + [x];
      if Retained(x, now) {
        DailyTotalsAppend(Prune(h', now), x, Clock.Day(now));
        DailyTotalsAppend(h', x, Clock.Day(now));
      } else {
        if Clock.Day(x.date) == Clock.Day(now) {
          Clock.SameDayIsClose(x.date, now);
        }
        DailyTotalsAppend(h', x, Clock.Day(now));
      }
    }
  }

  datatype ManualError = NotPositive | OverTenHours

  /** The manual-entry check: the entry in seconds must be positive and at most
      ten hours. Hours and minutes may be any integers, as parsed. */
  function ValidateManual(hours: int, minutes: int): (r: Result<nat, ManualError>)
    ensures r.Ok? <==> 0 < hours * 3600 + minutes * 60 <= ManualMaxSeconds
    ensures r.Ok? ==> r.value == hours * 3600 + minutes * 60
    ensures r.Err? ==> (r.error == NotPositive <==> hours * 3600 + minutes * 60 <= 0)
  {
    var total := hours * 3600 + minutes * 60;
    if total <= 0 then Err(NotPositive)
    else if total > ManualMaxSeconds then Err(OverTenHours)
    else Ok(total)
  }
}

=== FILE: reentrant_stop.dfy ===
/** The stop operation as the program writes it. Saving the session redraws the
    history, and the redraw ends with a budget refresh that runs while the timer
    is still marked running and its seconds are not yet reset. That refresh sees
    the saved seconds twice (once in today's total, once as elapsed) and, when
    they exhaust the budget, calls stop again, which saves again, and so on.
    `depth` bounds the nesting; `None` means the bound was used up. */
module ReentrantStop {
  import opened Types
  import Clock
  import History
  import Budget
  import Continuation
  import BreakTimer
  import SessionTimer

  /** The part of stop that follows the save: decide, remember, reset, open the break. */
  function Finish(s: State, st: Settings, cat: Category, now: nat): (r: State)
    ensures !r.running && r.elapsed == 0 && r.nextBreak == 0 && r.history == s.history
  {
    var d := Continuation.DecideStop(cat, s.elapsed, st, now);
    var s1 := s.(memory := d.memory, running := false, elapsed := 0, nextBreak := 0);
    if d.needBreak then BreakTimer.Begin(s1) else s1
  }

  /** Stopping the alarm and saving the session (with its history redraw). */
  function Saved(s: State, cat: Category, now: nat): State {
    SessionTimer.Record(s.(alarm := false), SessionTimer.TimedSession(now, s.elapsed, cat), now)
  }

  /** With current totals, the save adds the elapsed seconds to the category's
      pool and leaves the totals current; the timer fields are untouched. */
  lemma SavedTotals(s: State, cat: Category, now: nat)
    requires SessionTimer.TotalsCurrent(s, now)
    ensures Saved(s, cat, now).today == s.today.Add(PoolOf(cat), s.elapsed)
    ensures SessionTimer.TotalsCurrent(Saved(s, cat, now), now)
    ensures Saved(s, cat, now).running == s.running && Saved(s, cat, now).elapsed == s.elapsed
  {
    var x := SessionTimer.TimedSession(now, s.elapsed, cat);
    History.DailyTotalsAppend(s.history, x, Clock.Day(now));
  }

  function StopAsWritten(s: State, st: Settings, cat: Category, now: nat, depth: nat): (r: Option<State>)
    ensures r.Some? ==> !r.value.running && r.value.elapsed == 0 && r.value.nextBreak == 0
    ensures r.Some? ==> |s.history| <= |r.value.history| && r.value.history[..|s.history|] == s.history
    ensures r.Some? && s.elapsed > 0 ==>
      |s.history| < |r.value.history|
      && r.value.history[|s.history|] == SessionTimer.TimedSession(now, s.elapsed, cat)
    decreases depth
  {
    var s1 := s.(alarm := false);
    if s1.elapsed == 0 then Some(Finish(s1, st, cat, now))
    else
      var s2 := Saved(s, cat, now);
      var rem := SessionTimer.RemainingNow(s2, st, cat);
      var s3 := if s2.running && Budget.AlarmDue(rem) then s2.(alarm := true) else s2;
      if rem == 0 && s3.running then
        if depth == 0 then None
        else
          match StopAsWritten(s3, st, cat, now, depth - 1)
          case None => None
          case Some(s4) =>
            assert s3.history == s.history + [SessionTimer.TimedSession(now, s.elapsed, cat)];
            assert s4.history[..|s3.history|] == s3.history;
            assert s4.history[..|s.history|] == s3.history[..|s.history|];
            Some(Finish(s4, st, cat, now))
      else Some(Finish(s3, st, cat, now))
  }

  /** The refresh inside the save fires the stop path again. */
  predicate ReentersStop(s: State, st: Settings, cat: Category) {
    && s.running && s.elapsed > 0
    && Budget.Remaining(st, cat, s.today.Add(PoolOf(cat), s.elapsed), s.elapsed) == 0
  }

  /** When the refresh inside the save finds nothing left, stop as written
      returns exactly when the nested stop returns. */
  lemma NestedStopDecides(s: State, st: Settings, cat: Category, now: nat, depth: nat)
    requires s.elapsed > 0 && Saved(s, cat, now).running
    requires SessionTimer.RemainingNow(Saved(s, cat, now), st, cat) == 0
    ensures StopAsWritten(s, st, cat, now, depth).None? <==>
      depth == 0 || StopAsWritten(Saved(s, cat, now), st, cat, now, depth - 1).None?
  {
  }

  /** Once the nested refresh fires, it fires again at every level: each level
      saves one more copy of the session and the stop never returns. */
  lemma {:induction false} ReentryNeverReturns(s: State, st: Settings, cat: Category, now: nat, depth: nat)
    requires SessionTimer.TotalsCurrent(s, now)
    requires ReentersStop(s, st, cat)
    ensures StopAsWritten(s, st, cat, now, depth) == None
    decreases depth
  {
    var s2 := Saved(s, cat, now);
    SavedTotals(s, cat, now);
    assert ReentersStop(s2, st, cat);
    if depth > 0 {
      ReentryNeverReturns(s2, st, cat, now, depth - 1);
    }
    NestedStopDecides(s, st, cat, now, depth);
  }

  /** Every stop made by the budget refresh of a tick never returns: the
      refresh stops at zero seconds left, and the nested refresh then counts
      the session a second time. */
  lemma {:induction false} LimitStopNeverReturns(s: State, st: Settings, cat: Category, now: nat, depth: nat)
    requires SessionTimer.TotalsCurrent(s, now)
    requires SessionTimer.LimitHit(s, st, cat)
    ensures StopAsWritten(s.(elapsed := s.elapsed + 1), st, cat, now, depth) == None
  {
    var s1 := s.(elapsed := s.elapsed + 1);
    assert ReentersStop(s1, st, cat);
    ReentryNeverReturns(s1, st, cat, now, depth);
  }

  /** The counterexample at the budget boundary: a 3-hour limit
      with 10799 seconds already used today; the first tick exhausts it. */
  lemma BoundaryExampleNeverReturns(depth: nat)
    ensures var t := 50000;
      var h := [Session(40000, 10799, Some(Normal), false, false)];
      var s := State(true, 0, 1200, NoMemory, false, 0, false, h, Totals(10799, 0));
      StopAsWritten(s.(elapsed := 1), DefaultSettings, Normal, t, depth) == None
  {
    var t := 50000;
    var h := [Session(40000, 10799, Some(Normal), false, false)];
    var s := State(true, 0, 1200, NoMemory, false, 0, false, h, Totals(10799, 0));
    assert History.DailyTotals(h, Clock.Day(t)) == Totals(10799, 0) by {
      assert h == [] + [h[0]];
      History.DailyTotalsAppend([], h[0], Clock.Day(t));
    }
    LimitStopNeverReturns(s, DefaultSettings, Normal, t, depth);
  }

  /** When the nested refresh does not fire and raises no alarm, the stop as
      written returns the same state as the corrected stop. */
  lemma AgreesWhenBudgetLeft(s: State, st: Settings, cat: Category, now: nat, depth: nat)
    requires s.elapsed == 0 || !s.running
      || SessionTimer.RemainingNow(SessionTimer.Record(s, SessionTimer.TimedSession(now, s.elapsed, cat), now), st, cat)
         > Budget.AlarmLeadSeconds
    ensures StopAsWritten(s, st, cat, now, depth) == Some(SessionTimer.Stop(s, st, cat, now))
  {
  }

  /** A limit stop as written can return and open the break when the stored
      totals are stale: the page stayed open overnight, so a Normal session
      started today finds yesterday's 9600 seconds still in the totals. It
      reaches 1200 seconds (the interval) with nothing left of a 3-hour limit,
      and the redraw inside the save recomputes today's totals from the records
      as 1200 seconds, leaving the nested refresh 8400 seconds. */
  lemma StaleTotalsLimitStopOpensBreak(depth: nat)
    ensures var t := 100000;
      var h := [Session(40000, 9600, Some(Normal), false, false)];
      var s := State(true, 1199, 1200, NoMemory, false, 0, false, h, Totals(9600, 0));
      var r := StopAsWritten(s.(elapsed := 1200), DefaultSettings, Normal, t, depth);
      && SessionTimer.LimitHit(s, DefaultSettings, Normal)
      && r.Some? && r.value.onBreak && !r.value.running
      && r.value.history == h + [SessionTimer.TimedSession(t, 1200, Normal)]
  {
    var t := 100000;
    var h := [Session(40000, 9600, Some(Normal), false, false)];
    var s := State(true, 1199, 1200, NoMemory, false, 0, false, h, Totals(9600, 0));
    var x := SessionTimer.TimedSession(t, 1200, Normal);
    assert h == [] + [h[0]];
    History.DailyTotalsAppend([], h[0], Clock.Day(t));
    History.DailyTotalsAppend(h, x, Clock.Day(t));
    AgreesWhenBudgetLeft(s.(elapsed := 1200), DefaultSettings, Normal, t, depth);
  }

  /** A stop by hand diverges as well once the session's seconds are at least
      half of what the pool had left: a 5400-second Movie session on a day
      with nothing else used exhausts a 3-hour limit when counted twice. */
  lemma HandStopNeverReturns(depth: nat)
    ensures var s := State(true, 5400, 0, NoMemory, false, 0, false, [], ZeroTotals);
      StopAsWritten(s, DefaultSettings, Movie, 50000, depth) == None
  {
    var s := State(true, 5400, 0, NoMemory, false, 0, false, [], ZeroTotals);
    assert ReentersStop(s, DefaultSettings, Movie);
    ReentryNeverReturns(s, DefaultSettings, Movie, 50000, depth);
  }

  /** The alarm restarted after the stop: a Movie session of 5398 seconds
      stopped by hand on a day with nothing else used (3-hour limit) leaves the
      nested refresh 10800 - 2 * 5398 = 4 seconds, so the alarm is raised again
      after stop cleared it, and stays on with the timer idle and no break. */
  lemma StopLeavesAlarmOn()
    ensures var t := 50000;
      var s := State(true, 5398, 0, NoMemory, false, 0, false, [], ZeroTotals);
      var r := StopAsWritten(s, DefaultSettings, Movie, t, 0);
      && r.Some? && r.value.alarm && !r.value.running && !r.value.onBreak
  {
    var t := 50000;
    var x := SessionTimer.TimedSession(t, 5398, Movie);
    assert [] + [x] == [x];
    History.DailyTotalsAppend([], x, Clock.Day(t));
  }
}

=== FILE: scenarios.dfy ===
/** Worked examples with concrete numbers, under the factory settings
    (3-hour daily limit, 1 adult hour, a 10-minute break every 20 minutes). */
module Scenarios {
  import opened Types
  import Clock
  import History
  import Budget
  import SessionTimer
  import Controller

  const Idle: State := State(false, 0, 0, NoMemory, false, 0, false, [], ZeroTotals)

  /** Stopped at 19:59 and restarted five minutes later: the session resumes at
      1199 seconds. Stopped at 20:00 instead: the break is owed, nothing is
      remembered, and the next start begins at zero. */
  lemma ContinuationAtTheInterval()
    ensures var running := Idle.(running := true, elapsed := 1199, nextBreak := 1200);
      var r := SessionTimer.Start(SessionTimer.Stop(running, DefaultSettings, Normal, 1000),
                                  DefaultSettings, Normal, 1300);
      r.elapsed == 1199
    ensures var running := Idle.(running := true, elapsed := 1200, nextBreak := 1200);
      var b := SessionTimer.Stop(running, DefaultSettings, Normal, 1000);
      && b.onBreak && b.memory == NoMemory
      && SessionTimer.Start(b, DefaultSettings, Normal, 1300).elapsed == 0
  {
  }

  /** The alarm sounds from five seconds before the break; at 1200 seconds the
      break opens and the timer halts. */
  lemma BreakTiming()
    ensures var s := Idle.(running := true, elapsed := 1194, nextBreak := 1200);
      SessionTimer.Tick(s, DefaultSettings, Normal, 1000).alarm
    ensures var s := Idle.(running := true, elapsed := 1193, nextBreak := 1200);
      !SessionTimer.Tick(s, DefaultSettings, Normal, 1000).alarm
    ensures var s := Idle.(running := true, elapsed := 1199, nextBreak := 1200, alarm := true);
      var r := SessionTimer.Tick(s, DefaultSettings, Normal, 1000);
      r.onBreak && !r.running && r.elapsed == 1200 && r.history == []
  {
  }

  /** The budget boundary: with 10799 of 10800 seconds used today, the first
      second of a new Normal session stops it with a one-second record; the
      session had not reached its interval, so no break opens. */
  lemma BudgetBoundary(s: State, now: nat)
    requires s.running && !s.onBreak && s.elapsed == 0
    requires s.today.normal == 10799 && SessionTimer.TotalsCurrent(s, now)
    ensures var r := SessionTimer.Tick(s, DefaultSettings, Normal, now);
      && !r.running && !r.onBreak && r.elapsed == 0
      && r.history == s.history + [Session(now, 1, Some(Normal), false, false)]
      && r.today == Totals(10800, s.today.adult)
  {
    var x := Session(now, 1, Some(Normal), false, false);
    assert Budget.Remaining(DefaultSettings, Normal, s.today, 1) == 0;
    History.DailyTotalsAppend(s.history, x, Clock.Day(now));
  }

  /** Retention: a record from eight days ago is dropped, one from six days ago kept. */
  lemma RetentionWindow()
    ensures var now := 30 * Clock.SecondsPerDay;
      var stale := Session(now - 8 * Clock.SecondsPerDay, 60, Some(Normal), false, false);
      var recent := Session(now - 6 * Clock.SecondsPerDay, 60, Some(Normal), false, false);
      History.Prune([stale, recent], now) == [recent]
  {
    var now := 30 * Clock.SecondsPerDay;
    var stale := Session(now - 8 * Clock.SecondsPerDay, 60, Some(Normal), false, false);
    var recent := Session(now - 6 * Clock.SecondsPerDay, 60, Some(Normal), false, false);
    assert [stale, recent][..1] == [stale];
    assert [stale][..0] == [];
  }

  /** Manual entries: nothing, and eleven hours, are refused; an hour and a half
      of adult time is added as one manual record of 5400 seconds. */
  lemma ManualEntries()
    ensures SessionTimer.AddManualTime(Idle, DefaultSettings, 0, 0, Normal, Normal, 1000).Err?
    ensures SessionTimer.AddManualTime(Idle, DefaultSettings, 11, 0, Normal, Normal, 1000).Err?
    ensures var r := SessionTimer.AddManualTime(Idle, DefaultSettings, 1, 30, Adult, Normal, 1000);
      && r.Ok? && r.value.history == [Session(1000, 5400, Some(Adult), false, true)]
      && r.value.today == Totals(0, 5400)
  {
    var x := Session(1000, 5400, Some(Adult), false, true);
    assert [] + [x] == [x];
    History.DailyTotalsAppend([], x, Clock.Day(1000));
  }

  /** Legacy records count as Movie when flagged, else Normal; both land in the
      normal pool. */
  lemma LegacyRecordsCountAsNormalPool()
    ensures var h := [Session(10, 100, None, true, false), Session(20, 50, None, false, false)];
      History.DailyTotals(h, 0) == Totals(150, 0)
  {
    var a := Session(10, 100, None, true, false);
    var b := Session(20, 50, None, false, false);
    assert [a, b] == [] + [a] + [b];
    History.DailyTotalsAppend([], a, 0);
    History.DailyTotalsAppend([a], b, 0);
  }
}

=== FILE: session_timer.dfy ===
/** The session timer: start, stop, the one-second tick with its budget and
    break checks, and the history operations that feed today's totals.
    The selected category and the clock are parameters of every operation,
    because the program reads both afresh on every call. */
module SessionTimer {
  import opened Types
  import Clock
  import History
  import Budget
  import Continuation
  import BreakTimer

  /** The stored totals agree with the history for the calendar day of `now`. */
  predicate TotalsCurrent(s: State, now: nat) {
    s.today == History.DailyTotals(s.history, Clock.Day(now))
  }

  /** Redrawing the history recomputes today's totals from the records. */
  function Render(s: State, now: nat): (r: State)
    ensures TotalsCurrent(r, now)
    ensures r.(today := s.today) == s
  {
    s.(today := History.DailyTotals(s.history, Clock.Day(now)))
  }

  /** Appending a record and redrawing the history. */
  function Record(s: State, x: Session, now: nat): (r: State)
    ensures r.history == s.history + [x] && TotalsCurrent(r, now)
    ensures r.(history := s.history, today := s.today) == s
  {
    Render(s.(history := s.history + [x]), now)
  }

  /** Appending a record dated today adds its duration to exactly one pool of
      today's totals, provided the totals were current. */
  lemma RecordAddsToOnePool(s: State, x: Session, now: nat)
    requires TotalsCurrent(s, now)
    requires Clock.Day(x.date) == Clock.Day(now)
    ensures Record(s, x, now).today.Get(History.PoolOfSession(x)) ==
            s.today.Get(History.PoolOfSession(x)) + x.duration
    ensures forall p :: p != History.PoolOfSession(x) ==>
            Record(s, x, now).today.Get(p) == s.today.Get(p)
    ensures TotalsCurrent(Record(s, x, now), now)
  {
    History.DailyTotalsAppend(s.history, x, Clock.Day(now));
  }

  /** The record a timed session leaves behind. */
  function TimedSession(now: nat, duration: nat, cat: Category): Session {
    Session(now, duration, Some(cat), false, false)
  }

  /** Stopping the timer: the alarm stops, a record of the elapsed seconds is
      kept if there are any, the continuation memory is decided, the timer is
      reset, and the break opens when a Normal session reached its interval.
      The history redraw's budget refresh is taken to run after the reset,
      when it no longer affects the state. */
  function Stop(s: State, st: Settings, cat: Category, now: nat): (r: State)
    ensures !r.running && r.elapsed == 0 && r.nextBreak == 0 && !r.alarm
    ensures s.elapsed > 0 ==> r.history == s.history + [TimedSession(now, s.elapsed, cat)]
    ensures s.elapsed == 0 ==> r.history == s.history && r.today == s.today
    ensures s.elapsed > 0 ==> TotalsCurrent(r, now)
    ensures r.onBreak <==> s.onBreak || (cat == Normal && s.elapsed >= st.BreakIntervalSeconds())
    ensures r.breakElapsed ==
      if cat == Normal && s.elapsed >= st.BreakIntervalSeconds() then 0 else s.breakElapsed
    ensures r.memory ==
      if cat == Normal && s.elapsed < st.BreakIntervalSeconds() then Memory(s.elapsed, Some(now))
      else NoMemory
  {
    var s1 := s.(alarm := false);
    var s2 := if s1.elapsed > 0 then Record(s1, TimedSession(now, s1.elapsed, cat), now) else s1;
    var d := Continuation.DecideStop(cat, s2.elapsed, st, now);
    var s3 := s2.(memory := d.memory, running := false, elapsed := 0, nextBreak := 0);
    if d.needBreak then BreakTimer.Begin(s3) else s3
  }

  /** Seconds left today for the selected category's pool. */
  function RemainingNow(s: State, st: Settings, cat: Category): nat {
    Budget.Remaining(st, cat, s.today, s.elapsed)
  }

  /** The budget refresh: while a session runs, the alarm is raised in the last
      five seconds and the session is stopped when nothing is left. Idle, it
      changes nothing. */
  function Refresh(s: State, st: Settings, cat: Category, now: nat): (r: State)
    ensures !s.running ==> r == s
    ensures s.running && RemainingNow(s, st, cat) == 0 ==> r == Stop(s, st, cat, now)
    ensures s.running && Budget.AlarmDue(RemainingNow(s, st, cat)) ==> r == s.(alarm := true)
    ensures s.running && RemainingNow(s, st, cat) > Budget.AlarmLeadSeconds ==> r == s
  {
    var rem := RemainingNow(s, st, cat);
    var s1 := if rem <= Budget.AlarmLeadSeconds && rem > 0 && s.running then s.(alarm := true) else s;
    if rem <= 0 && s1.running then Stop(s1, st, cat, now) else s1
  }

  /** Starting the timer. A running timer is left alone; otherwise the session
      begins with the resumed or zero seconds and, for Normal, the next break
      one interval from zero. */
  function Start(s: State, st: Settings, cat: Category, now: nat): (r: State)
    ensures s.running ==> r == s
    ensures !s.running ==> r.running
    ensures !s.running ==> r.elapsed == Continuation.DecideStart(cat, s.memory, st, now)
    ensures !s.running ==> r.nextBreak == if cat == Normal then st.BreakIntervalSeconds() else 0
    ensures r.(running := s.running, elapsed := s.elapsed, nextBreak := s.nextBreak) == s
  {
    if s.running then s
    else
      var e := Continuation.DecideStart(cat, s.memory, st, now);
      s.(running := true, elapsed := e,
         nextBreak := if cat == Normal then st.BreakIntervalSeconds() else 0)
  }

  /** The tick stops the session on the budget path. */
  predicate LimitHit(s: State, st: Settings, cat: Category) {
    s.running && Budget.Remaining(st, cat, s.today, s.elapsed + 1) == 0
  }

  /** The tick reaches the break boundary of a Normal session. */
  predicate BreakHit(s: State, cat: Category) {
    cat == Normal && 0 < s.nextBreak <= s.elapsed + 1
  }

  /** The break is at most five seconds away after this tick. */
  predicate BreakNear(s: State, cat: Category) {
    cat == Normal && s.nextBreak > 0 && 0 < s.nextBreak - (s.elapsed + 1) <= Budget.AlarmLeadSeconds
  }

  /** One second of the session timer. The elapsed count goes up by one; then
      the budget refresh may stop the session (which can itself open a break);
      otherwise a Normal session reaching its break boundary halts and opens the
      break without being recorded, and one within five seconds of it raises
      the alarm. */
  function Tick(s: State, st: Settings, cat: Category, now: nat): (r: State)
    ensures LimitHit(s, st, cat) ==>
      && r.history == s.history + [TimedSession(now, s.elapsed + 1, cat)]
      && !r.running && r.elapsed == 0 && r.nextBreak == 0 && !r.alarm
      && (r.onBreak <==> s.onBreak || (cat == Normal && s.elapsed + 1 >= st.BreakIntervalSeconds()))
      && TotalsCurrent(r, now)
      && r.memory == (if cat == Normal && s.elapsed + 1 < st.BreakIntervalSeconds()
                      then Memory(s.elapsed + 1, Some(now)) else NoMemory)
    ensures !LimitHit(s, st, cat) ==>
      && r.elapsed == s.elapsed + 1 && r.nextBreak == s.nextBreak
      && r.history == s.history && r.today == s.today && r.memory == s.memory
    ensures !LimitHit(s, st, cat) && BreakHit(s, cat) ==>
      !r.running && r.onBreak && r.breakElapsed == 0
    ensures !LimitHit(s, st, cat) && !BreakHit(s, cat) ==>
      r.running == s.running && r.onBreak == s.onBreak && r.breakElapsed == s.breakElapsed
    ensures !LimitHit(s, st, cat) ==>
      (r.alarm <==> s.alarm || BreakNear(s, cat)
                    || (s.running && Budget.AlarmDue(Budget.Remaining(st, cat, s.today, s.elapsed + 1))))
  {
    var s1 := s.(elapsed := s.elapsed + 1);
    var s2 := Refresh(s1, st, cat, now);
    if cat == Normal && s2.nextBreak > 0 then
      var untilBreak := s2.nextBreak as int - s2.elapsed;
      if untilBreak <= 0 then BreakTimer.Begin(s2.(running := false))
      else if untilBreak <= Budget.AlarmLeadSeconds then s2.(alarm := true)
      else s2
    else s2
  }

  /** The record a manual entry leaves behind. */
  function ManualSession(now: nat, seconds: nat, cat: Category): Session {
    Session(now, seconds, Some(cat), false, true)
  }

  /** Adding time by hand: the entry is checked, appended as a manual record of
      the entry's category, the history redrawn, and the budget of the category
      selected for the timer refreshed. A rejected entry changes nothing. */
  function AddManualTime(s: State, st: Settings, hours: int, minutes: int,
                         entryCat: Category, selected: Category, now: nat)
    : (r: Result<State, History.ManualError>)
    ensures r.Err? <==> !(0 < hours * 3600 + minutes * 60 <= History.ManualMaxSeconds)
    ensures r.Ok? ==>
      && |r.value.history| >= |s.history| + 1
      && r.value.history[..|s.history| + 1] ==
         s.history + [ManualSession(now, hours * 3600 + minutes * 60, entryCat)]
    ensures r.Ok? ==> TotalsCurrent(r.value, now)
    ensures r.Ok? ==> |r.value.history| <= |s.history| + 2
    ensures r.Ok? && |r.value.history| == |s.history| + 2 ==>
      && s.running && s.elapsed > 0
      && r.value.history[|s.history| + 1] == TimedSession(now, s.elapsed, selected)
    ensures r.Ok? && s.running ==>
      (r.value.running <==>
         RemainingNow(Record(s, ManualSession(now, hours * 3600 + minutes * 60, entryCat), now), st, selected) > 0)
    ensures r.Ok? && !s.running ==>
      && r.value.history == s.history + [ManualSession(now, hours * 3600 + minutes * 60, entryCat)]
      && TotalsCurrent(r.value, now)
      && r.value.(history := s.history, today := s.today) == s
  {
    match History.ValidateManual(hours, minutes)
    case Err(e) => Err(e)
    case Ok(total) =>
      var s1 := Record(s, ManualSession(now, total, entryCat), now);
      var r := Refresh(s1, st, selected, now);
      assert r.history[..|s.history| + 1] == s1.history by {
        if s1.running && RemainingNow(s1, st, selected) == 0 && s1.elapsed > 0 {
          assert r.history == s1.history + [TimedSession(now, s1.elapsed, selected)];
        }
      }
      Ok(r)
  }

  /** Clearing the history (after the user confirmed): no records, zero totals. */
  function ClearHistory(s: State): (r: State)
    ensures r.history == [] && r.today == ZeroTotals
    ensures forall now :: TotalsCurrent(r, now)
    ensures r.(history := s.history, today := s.today) == s
  {
    s.(history := [], today := ZeroTotals)
  }

  /** The state after the page loads: an idle timer with nothing remembered,
      the stored history pruned to the last seven days, and today's totals. */
  function Launch(stored: seq<Session>, now: nat): (r: State)
    ensures !r.running && !r.onBreak && !r.alarm && r.elapsed == 0 && r.nextBreak == 0
    ensures r.memory == NoMemory
    ensures r.history == History.Prune(stored, now)
    ensures r.today == History.DailyTotals(stored, Clock.Day(now))
    ensures TotalsCurrent(r, now)
  {
    History.PruneKeepsToday(stored, now);
    var h := History.Prune(stored, now);
    State(false, 0, 0, NoMemory, false, 0, false, h, History.DailyTotals(h, Clock.Day(now)))
  }
}

=== FILE: types.dfy ===
/** The shared vocabulary of the usage timer: content categories, settings,
    session records, today's per-pool totals and the single application state. */
module Types {

  datatype Option<T> = None | Some(value: T)

  datatype Result<T, E> = Ok(value: T) | Err(error: E)

  /** The content category selected in the UI. Only Normal is subject to breaks. */
  datatype Category = Normal | Adult | Movie

  /** The two daily budget pools: Adult on its own, Normal and Movie together. */
  datatype Pool = NormalPool | AdultPool

  function PoolOf(c: Category): Pool {
    if c == Adult then AdultPool else NormalPool
  }

  /** User settings. The daily limits are held as whole seconds (the UI edits
      them as hours); break interval and duration are whole minutes. */
  datatype Settings = Settings(
    dailyLimitSeconds: nat,
    adultLimitSeconds: nat,
    breakIntervalMinutes: nat,
    breakDurationMinutes: nat)
  {
    function BreakIntervalSeconds(): nat { breakIntervalMinutes * 60 }

    function BreakDurationSeconds(): nat { breakDurationMinutes * 60 }

    function LimitOf(p: Pool): nat {
      match p
      case NormalPool => dailyLimitSeconds
      case AdultPool => adultLimitSeconds
    }
  }

  /** Factory settings: 3 hours, 1 adult hour, a 10-minute break every 20 minutes. */
  const DefaultSettings: Settings := Settings(3 * 3600, 1 * 3600, 20, 10)

  /** A stored session record. `contentType` is absent on legacy records, which
      carry the older `isMovie` flag instead. `date` is a timestamp in seconds. */
  datatype Session = Session(
    date: nat,
    duration: nat,
    contentType: Option<Category>,
    isMovie: bool,
    isManual: bool)

  /** Seconds used today, per pool. */
  datatype Totals = Totals(normal: nat, adult: nat) {
    function Get(p: Pool): nat {
      match p
      case NormalPool => normal
      case AdultPool => adult
    }

    function Add(p: Pool, d: nat): (r: Totals)
      ensures r.Get(p) == Get(p) + d
      ensures forall q :: q != p ==> r.Get(q) == Get(q)
    {
      match p
      case NormalPool => Totals(normal + d, adult)
      case AdultPool => Totals(normal, adult + d)
    }
  }

  const ZeroTotals: Totals := Totals(0, 0)

  /** What the last stop remembered for continuation: the elapsed seconds of the
      stopped Normal session and when it stopped (absent = never / cleared). */
  datatype Memory = Memory(lastSessionSeconds: nat, lastStopTime: Option<nat>)

  const NoMemory: Memory := Memory(0, None)

  /** The whole application state, minus the DOM, the audio and the interval
      handles. `alarm` stands for a repeating alarm being scheduled. */
  datatype State = State(
    running: bool,
    elapsed: nat,
    nextBreak: nat,
    memory: Memory,
    onBreak: bool,
    breakElapsed: nat,
    alarm: bool,
    history: seq<Session>,
    today: Totals)
}
